=== FILE: README.md ===
# Hub-IMG request handlers in Dafny

Hub-IMG is a small Flask application. Users register and log in. Once logged in,
a user uploads images, lists their own images, and deletes them. Anyone may view
an image's detail page. This project models the handlers of `app.py` as pure
transitions over one immutable state:

- the `user` table: id, unique username, password hash;
- the `image` table: id, unique filename, owner `user_id`;
- the set of file names in the upload folder;
- the session: the id of the logged-in user, or none.

Each handler (`App.Register`, `App.Login`, `App.Logout`, `App.Profile`, `App.Upload`,
`App.DeleteImage`, `App.ImageDetail`) takes a state and the request's inputs. It returns a
`Step`: the new state, and a `Response` tag for what the caller sees. The tag is a
redirect, a flash message, a page, or an HTTP error.

Files:

- `wrappers.dfy`, module `Wrappers`: the `Option` a query returns.
- `rows.dfy`, module `Rows`: a table is a sequence of rows in insertion order. The module
  holds the queries the handlers issue: `.first()` (`First`) and `.all()` (`Filter`). It also
  holds the key SQLite gives a new row of an `INTEGER PRIMARY KEY` table, which is one more
  than the largest key present (`NextKey`).
- `naming.dfy`, module `Naming`: the storage name of an upload. It is the 32 hex digits of
  `uuid4()`, a dash, and the sanitized original name. The module also holds its inverse,
  `ParseStoredName`.
- `app.dfy`, module `App`: the rows, the state, the invariant `Valid`, and the seven handlers.
- `invariants.dfy`, module `Invariants`: every handler preserves `Valid`. The module also
  proves the authentication, upload and ownership rules.
- `scenarios.dfy`, module `Scenarios`: two end-to-end request sequences, starting from an
  empty database.

The library code the handlers call is not interpreted. It is passed in as a `Library` value
with three fields: `hash(salt, raw)` stands for `generate_password_hash`, `check(stored, raw)`
for `check_password_hash`, and `sanitize` for `secure_filename`. Three assumptions about the
hash are stated as predicates and used only where a property needs them. `HashSound` says a
hash checks against its own password. `HashBinding` says it checks against no other password.
`HashHides` says a hash never equals the password it was made from.
The random inputs are parameters: the salt `generate_password_hash` draws, and the UUID hex
token of an upload.

`Valid` is the invariant every handler preserves. It has five parts:

- primary keys are unique and increase in insertion order;
- usernames are unique, and filenames are unique;
- every image's owner exists;
- the upload folder holds exactly the files named by image rows;
- a logged-in session names an existing user.

On three error paths the model follows the code as written:

- `register` does not look for an existing username itself. The unique column makes the
  commit raise, and the caller gets a server error. The model gives the `DuplicateUsername`
  tag, and no table changes.
- `delete_image` calls `os.remove` before it deletes the row. When the file is missing,
  `os.remove` raises, so the row stays and the caller gets a server error. The model gives
  the `FileMissing` tag, and nothing changes. It does not let the row deletion go ahead.
- `upload` writes the file before it commits the row. If the composed name clashes with an
  existing row, the file is written (overwriting the old one) and the commit fails. The model
  gives the `DuplicateFilename` tag: the file set gains the name, and the tables stay as they
  were. No file is rolled back. In a Valid state the name is already in the set, because the
  clashing row's file is there, so the set is in fact unchanged.

## Model

| member | source | states |
|---|---|---|
| `Rows.NextKey` | app.py:22 | A new row's key is at least 1 and larger than every key in the table. It is 1 for an empty table, and otherwise one more than an existing key (the largest). |
| `Rows.FilterKeepsIncreasing` | app.py:110 | Deleting rows keeps the remaining primary keys strictly increasing. |
| `App.FindUserByName` | app.py:58 | The lookup returns a user with exactly that username. It returns none exactly when no user has that name. |
| `App.FindImageById` | app.py:105 | The lookup returns an image row with that id. It returns none exactly when no row has that id. |
| `App.ImageDetail` | app.py:115-118 | The detail lookup changes nothing. It returns NotFound exactly when no row has that filename. Otherwise it returns a row of the table with that filename. |
| `App.Register` | app.py:40-50 | Registration succeeds exactly when the username is new. On success, one row is appended: it has that username, the password field is `hash(salt, raw)`, and the key is new. Earlier rows, images, files and the session are unchanged. A duplicate name changes nothing. |
| `App.Login` | app.py:53-64 | The outcome is LoggedIn or LoginFailed. LoggedIn sets the session to a user with that name whose stored hash checks against the password, and changes nothing else. LoginFailed changes nothing. An unknown username always fails. |
| `App.Logout` | app.py:66-70 | Afterwards no one is logged in, and the tables and files are unchanged. The response is LoggedOut exactly when someone was logged in; otherwise it is the redirect to login. |
| `App.Profile` | app.py:72-76 | Profile changes nothing, and redirects to login exactly when no one is logged in. Otherwise the listing holds exactly the image rows whose `user_id` is the session's user: no others, and none missing. No row is listed more often than it occurs in the table. |
| `App.Upload` | app.py:78-96 | No session redirects to login. A missing `image` part or an empty filename is rejected, with no change. Otherwise there are two outcomes. Success appends one row and adds one file. Both are named `token + "-" + sanitize(name)`, the name was not in use, the row's owner is the session user, and the key is new. On a clash with an existing filename, only the file set gains the name. Users and session never change. |
| `App.DeleteImage` | app.py:102-113 | The response is a redirect to login exactly when no one is logged in. It is NotFound, with no change, exactly when a user is logged in and no row has that id. Forbidden means the row exists and belongs to someone else. FileMissing means the session user owns the row but its file is not in the folder. Forbidden and FileMissing change nothing. Deleted means the session user owned the row and its file existed. Only that row and file are removed. |
| `Rows.First` | app.py:58 | `.first()` (also behind `first_or_404` at line 117): a result is an element of the table that satisfies the filter. There is no result exactly when no element satisfies it. |
| `Rows.Filter` | app.py:75 | `.all()`, and also the table after the delete at line 110: the result holds only elements of the table that satisfy the filter, and every element that satisfies it. No element occurs more often than in the table. |
| `Rows.FirstFindsEarliest` | app.py:58 | When the element at position `i` is the earliest one satisfying the filter, `.first()` returns exactly it. |
| `App.FindImageByFilename` | app.py:117 | The lookup returns an image row with that filename. It returns none exactly when no row has that filename. |
| `App.ImagesOwnedBy` | app.py:75 | The result holds only rows owned by that user id, and every row owned by it. No row occurs more often than in the table. |
| `App.RemoveImage` | app.py:110 | Deleting by key keeps every row with another key and no row with that key. No row occurs more often than before. |
| `Naming.StoredName` | app.py:90 | The storage name is the token, then a dash at the token's length, then the sanitized name. Its length is the sum of both lengths plus one. |
| `Naming.ParseStoredNameInverts` | app.py:90 | Splitting a composed storage name gives back the UUID token and the sanitized name. |
| `Naming.StoredNameInjective` | app.py:90 | Two storage names are equal only if their tokens and their sanitized names are equal. |
| `Naming.StartsWithTokenExactly` | app.py:90 | A storage name starts with its own token, and with no other token. |
| `Invariants.RegisterPreservesValid` | app.py:40-50 | Registration keeps the state Valid. |
| `Invariants.LoginPreservesValid` | app.py:53-64 | Login keeps the state Valid. In particular, the session names an existing user. |
| `Invariants.LogoutPreservesValid` | app.py:66-70 | Logout keeps the state Valid. |
| `Invariants.UploadPreservesValid` | app.py:78-96 | Every upload outcome keeps the state Valid, including a token clash. Filenames stay unique, and the rows and files stay consistent. |
| `Invariants.AddUserPreservesValid` | app.py:46-48 | Committing a user row with a larger key and an unused username keeps the state Valid. |
| `Invariants.AddImagePreservesValid` | app.py:91-94 | Writing a file and committing its row together keeps the state Valid, provided the row has a new key and a new filename and is owned by the session user. |
| `Invariants.DeletePreservesValid` | app.py:102-113 | Every delete outcome keeps the state Valid. |
| `Invariants.RemoveImagePreservesValid` | app.py:109-111 | Removing an image row together with its file keeps the state Valid. |
| `Invariants.RemoveImageExactly` | app.py:110 | With unique keys, deleting by an image's key removes that image and no other row. |
| `Invariants.RemoveImageFilenames` | app.py:109-110 | Deleting one row takes exactly its filename out of the set of stored filenames. |
| `Invariants.LoginSucceedsIff` | app.py:58-61 | Assume the state is Valid. Login succeeds if and only if a user with that username exists and the password checks against its hash. The session then becomes that user's id. |
| `Invariants.LoginFailureIsOneOutcome` | app.py:59-63 | An unknown username and a wrong password produce the same response, LoginFailed, and leave the state unchanged. |
| `Invariants.RegisterStoresNoRawPassword` | app.py:44-46 | Assume `HashHides`. A successful registration appends one row, and its password field is `hash(salt, raw)`, never the raw password. |
| `Invariants.RegisterThenLogin` | app.py:45-61 | Assume `HashSound`. After a successful registration, logging in with the same credentials succeeds, as the new user. |
| `Invariants.RegisterThenWrongPassword` | app.py:45-63 | Assume `HashBinding`. After a registration, logging in with any other password fails and changes nothing. |
| `Invariants.RegisterTwiceFails` | app.py:23 | Registering an existing username a second time is rejected, and the first row stays exactly as it was. |
| `Invariants.UploadFreshSucceeds` | app.py:89-94 | With a fresh token, an upload by a logged-in user with a named file succeeds. It appends exactly the row `(NextKey, name, session user)`, and adds exactly the one new file `name`. |
| `Invariants.UploadKeepsOtherTokensFresh` | app.py:90 | An upload under one token leaves every other token fresh. |
| `Invariants.TwoUploadsBothSucceed` | app.py:89-94 | Two uploads of the same original name by a logged-in user, under two different fresh tokens, both succeed. |
| `Invariants.EmptyUploadChangesNothing` | app.py:81-87 | An upload with no `image` part, or with an empty filename, leaves the whole state unchanged. |
| `Invariants.ImageKeyUnique` | app.py:28 | With increasing keys, two image rows with the same id are the same row. |
| `Invariants.DeleteOutcomes` | app.py:105-111 | Assume a Valid state and an existing image. A non-owner gets Forbidden, with no change. The owner gets Deleted: that file is removed, exactly that row is removed, and users and session are unchanged. |
| `Invariants.ListingHasNoDuplicates` | app.py:75 | In a Valid state, the listing holds each image row once: the listed rows have distinct, increasing keys. |
| `Invariants.DeleteMissingFile` | app.py:105-109 | With unique image keys, the owner's delete of an image whose file is not in the folder gives FileMissing and changes nothing, because `os.remove` raises before the row is deleted. |
| `Invariants.DeletedImageIsGone` | app.py:109-118 | After the owner deletes an image, deleting its id again gives NotFound, and its detail page gives NotFound. Its file is gone, and it is not in the owner's listing. |
| `Invariants.ForbiddenDeleteKeepsImage` | app.py:106-108 | A non-owner's delete leaves the state unchanged, and the image stays in its owner's listing. |
| `Invariants.AnonymousRequestsRejected` | app.py:66-104 | With no session, logout, profile, upload and delete_image all redirect to login and change nothing. |
| `Scenarios.UploadThenDelete` | app.py:40-113 | Assume alice's hash checks against her password. alice registers, logs in, uploads `photo.png` and sees exactly that one image. She deletes it. Her listing is then empty, the name gives NotFound, and the folder is empty. |
| `Scenarios.StrangerCannotDelete` | app.py:102-108 | Assume each user's hash checks against their password. alice uploads an image, and bob's delete of it is Forbidden. When alice logs back in, her listing still holds the image. |
| `Scenarios.BobThenAlice` | app.py:53-108 | From alice's session with one image: bob logs in, gets Forbidden on deleting it, and alice's listing still shows it. |
| `Scenarios.LoginAt` | app.py:58-61 | Logging in with a password that checks, as a user whose name no earlier row has, logs in exactly that user and changes nothing else. |
| `Scenarios.OwnerDeletesOnlyImage` | app.py:102-118 | The owner deleting the only image leaves no rows and no files. The listing is then empty, and the filename gives NotFound. |
| `Scenarios.OnlyImageListed` | app.py:72-76 | The owner of the only image sees exactly that image in the listing. |

## Left out

- Flask routing, `render_template`, `flash`, redirects and the GET forms of `/register` and `/login`: these are reduced to the `Response` tags. Only the POST form of each handler is modelled.
- A request missing the `username` or `password` form field: `request.form[...]` at app.py:43-44 and app.py:56-57 raises werkzeug's `BadRequestKeyError` (HTTP 400) before anything is written. The model's handlers always receive both strings.
- The `if file:` test in `upload`: a file entry with a non-empty filename is always truthy, so this branch never fails once the empty-filename check has passed.
- SQLAlchemy sessions, commits and sqlite configuration: each handler is one atomic transition. The failed commit after a unique-constraint clash is modelled as the state before the commit.
- The 80 and 120 length bounds of the `String` columns: sqlite does not enforce them.
- PBKDF2 inside `generate_password_hash`/`check_password_hash`, and `secure_filename`'s rules: they are foreign library code and are fields of `Library`.
- `uuid.uuid4()`: the token is a parameter. The success lemmas assume it is fresh (`FreshToken`): no stored name already starts with it. A clash is still modelled, as `DuplicateFilename`.
- File contents, `file.save`, `os.remove` and `send_from_directory` (`/uploads/<filename>`): the upload folder is modelled as a set of names. The model has no member for that route, which only reads the folder.
- `load_user`: the session holds a user id, and `Valid` keeps it naming an existing user.
- Concurrency between requests, the secret key and app config, `index`, and process start-up.
- App.Upload: `file.save` at app.py:91 is assumed to succeed. It can fail, for example when the file part's name is 223 or more ASCII characters: `secure_filename` does not shorten it, so the stored name is over 255 bytes, and `file.save` raises `OSError` on usual Linux filesystems. The caller then gets a server error, and no file and no row are written. The model answers `Uploaded` and adds both.
- 64-bit integer keys: keys are unbounded `nat`s. In SQLite a key is a signed 64-bit integer. A `/delete_image/<id>` with an id of 2^63 or more fails with a server error (the driver cannot bind it), where the model answers NotFound. Once the largest key is 2^63-1, SQLite picks an unused random key instead of max+1. Neither case arises at this application's scale.
- The order of `.all()` results: the listing keeps the table's insertion order. The SQL query has no ORDER BY, so the model does not claim this order for the real query.

=== FILE: app.dfy ===
/** The request handlers of app.py as atomic transitions over the application
    state: the `user` and `image` tables, the names of the files in the upload
    folder, and the id the session is logged in as. Each handler returns the new
    state and a tag for what the user sees (a redirect, a flash message, a page
    or an HTTP error). */
module App {
  import opened Wrappers
  import opened Rows
  import opened Naming

  /** A row of the `user` table (app.py:21-25); `password` holds the hash. */
  datatype User = User(id: nat, username: string, password: string)

  /** A row of the `image` table (app.py:27-30). */
  datatype Image = Image(id: nat, filename: string, userId: nat)

  function UserKey(u: User): nat { u.id }
  function ImageKey(im: Image): nat { im.id }

  /** The library code the handlers call, left uninterpreted:
      `generate_password_hash` (with the random salt it draws as an argument),
      `check_password_hash` and `secure_filename`. */
  datatype Library = Library(
    hash: (string, string) -> string,
    check: (string, string) -> bool,
    sanitize: string -> string)

  /** The `image` part of an upload request, as far as the handler looks at it. */
  datatype FilePart = FilePart(filename: string)

  datatype State = State(
    users: seq<User>,
    images: seq<Image>,
    files: set<string>,
    session: Option<nat>)

  /** What a request shows its caller. `Uploaded` also carries the stored name,
      which the source only keeps in the new row, so that properties can refer to it. */
  datatype Response =
    | RedirectToLogin     // `login_required` turned an anonymous request away
    | Registered          // redirect to the login page with a success message
    | DuplicateUsername   // the unique username column rejected the commit (HTTP 500)
    | LoggedIn            // redirect to the profile page
    | LoginFailed         // 'Login failed. Check your username and password.'
    | LoggedOut           // redirect to the index page
    | Listing(images: seq<Image>)
    | NoFilePart          // 'No file part'
    | NoSelectedFile      // 'No selected file'
    | Uploaded(filename: string)
    | DuplicateFilename   // the unique filename column rejected the commit (HTTP 500)
    | NotFound            // HTTP 404
    | Forbidden           // 'You do not have permission to delete this image.'
    | FileMissing         // `os.remove` raised before the row was deleted (HTTP 500)
    | Deleted             // 'Image deleted successfully.'
    | Detail(image: Image)

  datatype Step = Step(st: State, resp: Response)

  const Empty := State([], [], {}, None)

  /* ---------------- Queries ---------------- */

  function UserIds(users: seq<User>): set<nat> {
    set u | u in users :: u.id
  }

  function Filenames(images: seq<Image>): set<string> {
    set im | im in images :: im.filename
  }

  /** `User.query.filter_by(username=name).first()` */
  function FindUserByName(users: seq<User>, name: string): (r: Option<User>)
    ensures r.Some? ==> r.value in users && r.value.username == name
    ensures r.None? <==> forall u :: u in users ==> u.username != name
  {
    First(users, (u: User) => u.username == name)
  }

  /** `Image.query.get(id)` */
  function FindImageById(images: seq<Image>, id: nat): (r: Option<Image>)
    ensures r.Some? ==> r.value in images && r.value.id == id
    ensures r.None? <==> forall im :: im in images ==> im.id != id
  {
    First(images, (im: Image) => im.id == id)
  }

  /** `Image.query.filter_by(filename=name).first()` */
  function FindImageByFilename(images: seq<Image>, name: string): (r: Option<Image>)
    ensures r.Some? ==> r.value in images && r.value.filename == name
    ensures r.None? <==> name !in Filenames(images)
  {
    First(images, (im: Image) => im.filename == name)
  }

  /** `Image.query.filter_by(user_id=uid).all()`: exactly the rows owned by `uid`. */
  function ImagesOwnedBy(images: seq<Image>, uid: nat): (r: seq<Image>)
    ensures forall im :: im in r ==> im in images && im.userId == uid
    ensures forall i :: 0 <= i < |images| && images[i].userId == uid ==> images[i] in r
    ensures multiset(r) <= multiset(images)
  {
    Filter(images, (im: Image) => im.userId == uid)
  }

  /** The image table after `db.session.delete` of the row with key `id`. */
  function RemoveImage(images: seq<Image>, id: nat): (r: seq<Image>)
    ensures forall im :: im in r ==> im in images && im.id != id
    ensures forall i :: 0 <= i < |images| && images[i].id != id ==> images[i] in r
    ensures multiset(r) <= multiset(images)
  {
    Filter(images, (im: Image) => im.id != id)
  }

  /* ---------------- Invariant ---------------- */

  /** Primary keys are unique and increase in insertion order. */
  ghost predicate KeysOrdered(st: State) {
    IdsIncreasing(st.users, UserKey) && IdsIncreasing(st.images, ImageKey)
  }

  /** The unique constraints on `user.username` and `image.filename`. */
  ghost predicate ColumnsUnique(st: State) {
    && (forall a, b :: a in st.users && b in st.users && a.username == b.username ==> a == b)
    && (forall a, b :: a in st.images && b in st.images && a.filename == b.filename ==> a == b)
  }

  /** Every image's `user_id` names an existing user. */
  ghost predicate OwnersExist(st: State) {
    forall im :: im in st.images ==> im.userId in UserIds(st.users)
  }

  /** An image row exists exactly when a file of that name is in the upload folder. */
  ghost predicate FilesMatchRows(st: State) {
    st.files == Filenames(st.images)
  }

  /** A logged-in session names an existing user. */
  ghost predicate SessionKnown(st: State) {
    st.session.Some? ==> st.session.value in UserIds(st.users)
  }

  ghost predicate Valid(st: State) {
    KeysOrdered(st) && ColumnsUnique(st) && OwnersExist(st) && FilesMatchRows(st) && SessionKnown(st)
  }

  /** No stored file name was drawn with `token` (a fresh `uuid4`). */
  ghost predicate FreshToken(st: State, token: string) {
    forall f :: f in st.files ==> !StartsWithToken(f, token)
  }

  /* ---------------- Handlers ---------------- */

  /** POST /register (app.py:40-50): store a new user with the hashed password.
      The handler does not look for an existing username itself; the unique
      column makes the commit fail and nothing is stored. */
  function Register(st: State, lib: Library, salt: string, username: string, raw: string): (r: Step)
    ensures r.st.images == st.images && r.st.files == st.files && r.st.session == st.session
    ensures r.resp == Registered || r.resp == DuplicateUsername
    ensures r.resp == Registered <==> forall u :: u in st.users ==> u.username != username
    ensures r.resp == DuplicateUsername ==> r.st == st
    ensures r.resp == Registered ==>
      && |r.st.users| == |st.users| + 1
      && r.st.users[..|st.users|] == st.users
      && var added := r.st.users[|st.users|];
         added.username == username
         && added.password == lib.hash(salt, raw)
         && forall u :: u in st.users ==> u.id < added.id
  {
    if FindUserByName(st.users, username).Some? then
      Step(st, DuplicateUsername)
    else
      var row := User(NextKey(st.users, UserKey), username, lib.hash(salt, raw));
      Step(st.(users := st.users + [row]), Registered)
  }

  /** POST /login (app.py:53-63): log in as the user of that name when the
      password checks against the stored hash; otherwise one failure message. */
  function Login(st: State, lib: Library, username: string, raw: string): (r: Step)
    ensures r.resp == LoggedIn || r.resp == LoginFailed
    ensures r.resp == LoginFailed ==> r.st == st
    ensures r.resp == LoggedIn ==>
      exists u :: u in st.users && u.username == username && lib.check(u.password, raw)
               && r.st == st.(session := Some(u.id))
    ensures (forall u :: u in st.users ==> u.username != username) ==> r.resp == LoginFailed
  {
    match FindUserByName(st.users, username)
    case Some(u) =>
      if lib.check(u.password, raw) then Step(st.(session := Some(u.id)), LoggedIn)
      else Step(st, LoginFailed)
    case None => Step(st, LoginFailed)
  }

  /** GET /logout (app.py:66-70). */
  function Logout(st: State): (r: Step)
    ensures r.st.users == st.users && r.st.images == st.images && r.st.files == st.files
    ensures r.st.session.None?
    ensures r.resp == LoggedOut <==> st.session.Some?
    ensures r.resp == LoggedOut || r.resp == RedirectToLogin
  {
    if st.session.None? then Step(st, RedirectToLogin)
    else Step(st.(session := None), LoggedOut)
  }

  /** GET /profile (app.py:72-76): the logged-in user's images. */
  function Profile(st: State): (r: Step)
    ensures r.st == st
    ensures st.session.None? <==> r.resp == RedirectToLogin
    ensures st.session.Some? ==> r.resp.Listing?
    ensures r.resp.Listing? ==>
      && (forall im :: im in r.resp.images ==> im in st.images && im.userId == st.session.value)
      && (forall i :: 0 <= i < |st.images| && st.images[i].userId == st.session.value ==>
            st.images[i] in r.resp.images)
      && multiset(r.resp.images) <= multiset(st.images)
  {
    if st.session.None? then Step(st, RedirectToLogin)
    else Step(st, Listing(ImagesOwnedBy(st.images, st.session.value)))
  }

  /** POST /upload (app.py:78-96). `part` is the `image` entry of the request's
      files, `token` the hex of the UUID drawn for it. The file is written
      before the row is committed, so a clash on the unique filename column
      leaves the file written and the tables as they were. */
  function Upload(st: State, lib: Library, token: string, part: Option<FilePart>): (r: Step)
    ensures r.st.users == st.users && r.st.session == st.session
    ensures st.session.None? ==> r == Step(st, RedirectToLogin)
    ensures st.session.Some? && part.None? ==> r == Step(st, NoFilePart)
    ensures st.session.Some? && part.Some? && part.value.filename == "" ==> r == Step(st, NoSelectedFile)
    ensures r.resp.Uploaded? ==>
      && st.session.Some? && part.Some?
      && r.resp.filename == StoredName(token, lib.sanitize(part.value.filename))
      && r.resp.filename !in Filenames(st.images)
      && r.st.files == st.files + {r.resp.filename}
      && |r.st.images| == |st.images| + 1
      && r.st.images[..|st.images|] == st.images
      && var added := r.st.images[|st.images|];
         added.filename == r.resp.filename
         && added.userId == st.session.value
         && forall im :: im in st.images ==> im.id < added.id
    ensures r.resp == DuplicateFilename ==>
      && st.session.Some? && part.Some?
      && var name := StoredName(token, lib.sanitize(part.value.filename));
         name in Filenames(st.images) && r.st == st.(files := st.files + {name})
    ensures st.session.Some? && part.Some? && part.value.filename != "" ==>
      r.resp.Uploaded? || r.resp == DuplicateFilename
  {
    if st.session.None? then Step(st, RedirectToLogin)
    else if part.None? then Step(st, NoFilePart)
    else if part.value.filename == "" then Step(st, NoSelectedFile)
    else
      var name := StoredName(token, lib.sanitize(part.value.filename));
      var files := st.files + {name};
      if FindImageByFilename(st.images, name).Some? then
        Step(st.(files := files), DuplicateFilename)
      else
        var row := Image(NextKey(st.images, ImageKey), name, st.session.value);
        Step(st.(images := st.images + [row], files := files), Uploaded(name))
  }

  /** GET /delete_image/<id> (app.py:102-113): only the owner may delete; the
      file is removed first and then the row. */
  function DeleteImage(st: State, id: nat): (r: Step)
    ensures st.session.None? ==> r == Step(st, RedirectToLogin)
    ensures r.resp == RedirectToLogin <==> st.session.None?
    ensures st.session.Some? && (forall im :: im in st.images ==> im.id != id) ==> r == Step(st, NotFound)
    ensures r.resp == NotFound <==> st.session.Some? && forall im :: im in st.images ==> im.id != id
    ensures r.resp == Forbidden ==>
      st.session.Some? && exists im :: im in st.images && im.id == id && im.userId != st.session.value
    ensures r.resp == Forbidden || r.resp == FileMissing ==> r.st == st
    ensures r.resp == FileMissing ==>
      exists im :: im in st.images && im.id == id && im.userId == st.session.value
        && im.filename !in st.files
    ensures r.resp == Deleted ==>
      exists im :: im in st.images && im.id == id && im.userId == st.session.value
        && im.filename in st.files
        && r.st == st.(images := RemoveImage(st.images, id), files := st.files - {im.filename})
    ensures r.resp in {RedirectToLogin, NotFound, Forbidden, FileMissing, Deleted}
  {
    if st.session.None? then Step(st, RedirectToLogin)
    else
      match FindImageById(st.images, id)
      case None => Step(st, NotFound)
      case Some(im) =>
        if im.userId != st.session.value then Step(st, Forbidden)
        else if im.filename !in st.files then Step(st, FileMissing)
        else Step(st.(images := RemoveImage(st.images, id), files := st.files - {im.filename}), Deleted)
  }

  /** GET /image/<filename> (app.py:115-118): the detail page of the image row
      with that filename; no login needed. */
  function ImageDetail(st: State, filename: string): (r: Step)
    ensures r.st == st
    ensures r.resp.Detail? || r.resp == NotFound
    ensures r.resp == NotFound <==> filename !in Filenames(st.images)
    ensures r.resp.Detail? ==> r.resp.image in st.images && r.resp.image.filename == filename
  {
    match FindImageByFilename(st.images, filename)
    case Some(im) => Step(st, Detail(im))
    case None => Step(st, NotFound)
  }
}

=== FILE: invariants.dfy ===
/** Properties of the handlers: every handler keeps the state Valid, and the
    authentication, upload and ownership rules of app.py hold over all inputs. */
module Invariants {
  import opened Wrappers
  import opened Rows
  import opened Naming
  import opened App

  /** `check_password_hash` accepts every hash `generate_password_hash` made
      from the same password. */
  ghost predicate HashSound(lib: Library) {
    forall salt, raw :: lib.check(lib.hash(salt, raw), raw)
  }

  /** A hash accepts no password other than the one it was made from. */
  ghost predicate HashBinding(lib: Library) {
    forall salt, raw, other :: lib.check(lib.hash(salt, raw), other) ==> other == raw
  }

  /** A hash never equals the password it was made from. */
  ghost predicate HashHides(lib: Library) {
    forall salt, raw :: lib.hash(salt, raw) != raw
  }

  /* ---------------- Invariant preservation ---------------- */

  lemma RegisterPreservesValid(st: State, lib: Library, salt: string, username: string, raw: string)
    requires Valid(st)
    ensures Valid(Register(st, lib, salt, username, raw).st)
  {
    var r := Register(st, lib, salt, username, raw);
    if r.resp == Registered {
      var added := r.st.users[|st.users|];
      assert r.st == st.(users := st.users + [added]);
      AddUserPreservesValid(st, added);
    }
  }

  /** Committing a user row with a new key and a new username keeps the state Valid. */
  lemma AddUserPreservesValid(st: State, added: User)
    requires Valid(st)
    requires forall u :: u in st.users ==> UserKey(u) < UserKey(added)
    requires forall u :: u in st.users ==> u.username != added.username
    ensures Valid(st.(users := st.users + [added]))
  {
    var s := st.(users := st.users + [added]);
    AppendKeepsIncreasing(st.users, added, UserKey);
    assert UserIds(s.users) == UserIds(st.users) + {added.id};
    assert ColumnsUnique(s) by {
      forall a, b | a in s.users && b in s.users && a.username == b.username
        ensures a == b
      {
        if a != added && b != added {
          assert a in st.users && b in st.users;
        }
      }
    }
  }

  lemma LoginPreservesValid(st: State, lib: Library, username: string, raw: string)
    requires Valid(st)
    ensures Valid(Login(st, lib, username, raw).st)
  {
    var r := Login(st, lib, username, raw);
    if r.resp == LoggedIn {
      var u :| u in st.users && u.username == username && lib.check(u.password, raw)
               && r.st == st.(session := Some(u.id));
      assert u.id in UserIds(st.users);
    }
  }

  lemma LogoutPreservesValid(st: State)
    requires Valid(st)
    ensures Valid(Logout(st).st)
  {
  }

  /** Even a clashing token keeps the invariant: the file it overwrote already
      backed a row, and no row was added. */
  lemma UploadPreservesValid(st: State, lib: Library, token: string, part: Option<FilePart>)
    requires Valid(st)
    ensures Valid(Upload(st, lib, token, part).st)
  {
    var r := Upload(st, lib, token, part);
    if r.resp.Uploaded? {
      var added := r.st.images[|st.images|];
      assert r.st.images == st.images + [added];
      AddImagePreservesValid(st, added);
    } else if r.resp == DuplicateFilename {
      assert FilesMatchRows(r.st);
    }
  }

  /** Committing a new row with a new key and a new filename, together with its
      file, keeps the state Valid. */
  lemma AddImagePreservesValid(st: State, added: Image)
    requires Valid(st)
    requires forall x :: x in st.images ==> ImageKey(x) < ImageKey(added)
    requires added.filename !in Filenames(st.images)
    requires st.session == Some(added.userId)
    ensures Valid(st.(images := st.images + [added], files := st.files + {added.filename}))
  {
    var s := st.(images := st.images + [added], files := st.files + {added.filename});
    AppendKeepsIncreasing(st.images, added, ImageKey);
    assert KeysOrdered(s);
    assert Filenames(s.images) == Filenames(st.images) + {added.filename};
    assert ColumnsUnique(s) by {
      forall a, b | a in s.images && b in s.images && a.filename == b.filename
        ensures a == b
      {
        if a != added && b != added {
          assert a in st.images && b in st.images;
        }
      }
    }
  }

  lemma DeletePreservesValid(st: State, id: nat)
    requires Valid(st)
    ensures Valid(DeleteImage(st, id).st)
  {
    if st.session.Some? && FindImageById(st.images, id).Some? {
      RemoveImagePreservesValid(st, FindImageById(st.images, id).value);
    }
  }

  /** Removing a row together with its file keeps the state Valid. */
  lemma RemoveImagePreservesValid(st: State, im: Image)
    requires Valid(st) && im in st.images
    ensures Valid(st.(images := RemoveImage(st.images, im.id), files := st.files - {im.filename}))
  {
    var s := st.(images := RemoveImage(st.images, im.id), files := st.files - {im.filename});
    FilterKeepsIncreasing(st.images, (x: Image) => x.id != im.id, ImageKey);
    assert KeysOrdered(s);
    RemoveImageFilenames(st, im);
    assert FilesMatchRows(s);
  }

  /** With unique filenames, deleting a row takes exactly its name out of the
      set of stored names. */
  lemma RemoveImageFilenames(st: State, im: Image)
    requires Valid(st) && im in st.images
    ensures Filenames(RemoveImage(st.images, im.id)) == Filenames(st.images) - {im.filename}
  {
    var rest := RemoveImage(st.images, im.id);
    forall f | f in Filenames(st.images) - {im.filename} ensures f in Filenames(rest) {
      var x :| x in st.images && x.filename == f;
      var i :| 0 <= i < |st.images| && st.images[i] == x;
    }
  }

  /* ---------------- Authentication ---------------- */

  /** Login succeeds, and sets the session to that user, exactly when a user of
      that name exists and the password checks against its stored hash. */
  lemma LoginSucceedsIff(st: State, lib: Library, username: string, raw: string)
    requires Valid(st)
    ensures var r := Login(st, lib, username, raw);
      r.resp == LoggedIn <==>
        exists u :: u in st.users && u.username == username && lib.check(u.password, raw)
    ensures var r := Login(st, lib, username, raw);
      forall u :: u in st.users && u.username == username && lib.check(u.password, raw) ==>
        r.st == st.(session := Some(u.id))
  {
    var found := FindUserByName(st.users, username);
    if found.Some? {
      forall u | u in st.users && u.username == username ensures u == found.value {
      }
    }
  }

  /** An unknown username and a wrong password end the same way: the same
      response and no change of state. */
  lemma LoginFailureIsOneOutcome(st: State, lib: Library, username: string, raw: string)
    requires forall u :: u in st.users && u.username == username ==> !lib.check(u.password, raw)
    ensures Login(st, lib, username, raw) == Step(st, LoginFailed)
  {
  }

  /** Registration stores the hash of the password and never the password itself. */
  lemma RegisterStoresNoRawPassword(st: State, lib: Library, salt: string, username: string, raw: string)
    requires HashHides(lib)
    ensures var r := Register(st, lib, salt, username, raw);
      r.resp == Registered ==>
        && |r.st.users| == |st.users| + 1
        && r.st.users[|st.users|].password == lib.hash(salt, raw)
        && r.st.users[|st.users|].password != raw
  {
  }

  /** A freshly registered user can log in with the password it registered. */
  lemma RegisterThenLogin(st: State, lib: Library, salt: string, username: string, raw: string)
    requires Valid(st) && HashSound(lib)
    requires forall u :: u in st.users ==> u.username != username
    ensures var r1 := Register(st, lib, salt, username, raw);
      var r2 := Login(r1.st, lib, username, raw);
      && r1.resp == Registered
      && r2.resp == LoggedIn
      && r2.st == r1.st.(session := Some(r1.st.users[|st.users|].id))
  {
    var r1 := Register(st, lib, salt, username, raw);
    RegisterPreservesValid(st, lib, salt, username, raw);
    var added := r1.st.users[|st.users|];
    assert added in r1.st.users;
    assert lib.check(lib.hash(salt, raw), raw);
    LoginSucceedsIff(r1.st, lib, username, raw);
  }

  /** After registering, any other password is refused. */
  lemma RegisterThenWrongPassword(st: State, lib: Library, salt: string, username: string,
                                  raw: string, other: string)
    requires Valid(st) && HashBinding(lib)
    requires forall u :: u in st.users ==> u.username != username
    requires other != raw
    ensures var r1 := Register(st, lib, salt, username, raw);
      Login(r1.st, lib, username, other) == Step(r1.st, LoginFailed)
  {
    var r1 := Register(st, lib, salt, username, raw);
    RegisterPreservesValid(st, lib, salt, username, raw);
    var added := r1.st.users[|st.users|];
    assert r1.st.users == st.users + [added];
    forall u | u in r1.st.users && u.username == username ensures !lib.check(u.password, other) {
      assert u == added;
    }
    LoginFailureIsOneOutcome(r1.st, lib, username, other);
  }

  /** A second registration of a taken username fails and leaves every row as it was. */
  lemma RegisterTwiceFails(st: State, lib: Library, s1: string, s2: string, username: string,
                           raw1: string, raw2: string)
    requires forall u :: u in st.users ==> u.username != username
    ensures var r1 := Register(st, lib, s1, username, raw1);
      var r2 := Register(r1.st, lib, s2, username, raw2);
      r2 == Step(r1.st, DuplicateUsername)
  {
    var r1 := Register(st, lib, s1, username, raw1);
    assert r1.st.users[|st.users|] in r1.st.users;
  }

  /* ---------------- Upload ---------------- */

  /** With a fresh token, an upload by a logged-in user with a named file adds
      one row and one file, both under the composed name, owned by the user. */
  lemma UploadFreshSucceeds(st: State, lib: Library, token: string, part: Option<FilePart>)
    requires Valid(st) && FreshToken(st, token)
    requires st.session.Some? && part.Some? && part.value.filename != ""
    ensures var r := Upload(st, lib, token, part);
      var name := StoredName(token, lib.sanitize(part.value.filename));
      && r.resp == Uploaded(name)
      && r.st.files == st.files + {name}
      && name !in st.files
      && r.st.images == st.images + [Image(NextKey(st.images, ImageKey), name, st.session.value)]
  {
    var name := StoredName(token, lib.sanitize(part.value.filename));
    assert StartsWithToken(name, token);
    var r := Upload(st, lib, token, part);
    assert r.st.images == st.images[..|st.images|] + [r.st.images[|st.images|]];
  }

  /** An upload drawn with one token leaves every other token fresh: two
      uploads of the same file name under different tokens both succeed. */
  lemma UploadKeepsOtherTokensFresh(st: State, lib: Library, t1: string, t2: string,
                                    part: Option<FilePart>)
    requires IsToken(t1) && IsToken(t2) && t1 != t2
    requires FreshToken(st, t2)
    ensures FreshToken(Upload(st, lib, t1, part).st, t2)
  {
    var r := Upload(st, lib, t1, part);
    if st.session.Some? && part.Some? && part.value.filename != "" {
      StartsWithTokenExactly(t1, lib.sanitize(part.value.filename), t2);
    }
  }

  /** Uploading the same file twice, under two different fresh tokens, stores it twice. */
  lemma TwoUploadsBothSucceed(st: State, lib: Library, t1: string, t2: string, part: Option<FilePart>)
    requires Valid(st) && st.session.Some? && part.Some? && part.value.filename != ""
    requires IsToken(t1) && IsToken(t2) && t1 != t2
    requires FreshToken(st, t1) && FreshToken(st, t2)
    ensures var r1 := Upload(st, lib, t1, part);
      && r1.resp.Uploaded?
      && Upload(r1.st, lib, t2, part).resp.Uploaded?
  {
    var r1 := Upload(st, lib, t1, part);
    UploadFreshSucceeds(st, lib, t1, part);
    UploadPreservesValid(st, lib, t1, part);
    UploadKeepsOtherTokensFresh(st, lib, t1, t2, part);
    UploadFreshSucceeds(r1.st, lib, t2, part);
  }

  /** A rejected upload leaves everything as it was. */
  lemma EmptyUploadChangesNothing(st: State, lib: Library, token: string, part: Option<FilePart>)
    requires part.None? || part.value.filename == ""
    ensures Upload(st, lib, token, part).st == st
  {
  }

  /* ---------------- Ownership ---------------- */

  /** Two rows of the image table with the same key are the same row. */
  lemma ImageKeyUnique(images: seq<Image>, a: Image, b: Image)
    requires IdsIncreasing(images, ImageKey)
    requires a in images && b in images && a.id == b.id
    ensures a == b
  {
    var i :| 0 <= i < |images| && images[i] == a;
    var j :| 0 <= j < |images| && images[j] == b;
    assert !(i < j) && !(j < i);
  }

  /** With unique keys, deleting by `im`'s key removes `im` and nothing else. */
  lemma RemoveImageExactly(images: seq<Image>, im: Image)
    requires IdsIncreasing(images, ImageKey) && im in images
    ensures forall x :: x in RemoveImage(images, im.id) <==> x in images && x != im
  {
    forall x | x in images && x != im ensures x in RemoveImage(images, im.id) {
      if x.id == im.id {
        ImageKeyUnique(images, x, im);
      }
      var j :| 0 <= j < |images| && images[j] == x;
    }
  }

  /** The three outcomes of deleting a known image as a logged-in user. */
  lemma DeleteOutcomes(st: State, id: nat, im: Image)
    requires Valid(st) && st.session.Some?
    requires im in st.images && im.id == id
    ensures var r := DeleteImage(st, id);
      && (im.userId != st.session.value ==> r == Step(st, Forbidden))
      && (im.userId == st.session.value ==>
            && r.resp == Deleted
            && r.st.files == st.files - {im.filename}
            && r.st.users == st.users && r.st.session == st.session
            && (forall x :: x in r.st.images <==> x in st.images && x != im))
  {
    var found := FindImageById(st.images, id);
    ImageKeyUnique(st.images, found.value, im);
    if im.userId == st.session.value {
      assert im.filename in Filenames(st.images);
      assert DeleteImage(st, id)
        == Step(st.(images := RemoveImage(st.images, id), files := st.files - {im.filename}), Deleted);
      RemoveImageExactly(st.images, im);
    }
  }

  /** In a Valid state the profile listing holds each image row once: no two
      listed rows share a key. */
  lemma ListingHasNoDuplicates(st: State)
    requires Valid(st) && st.session.Some?
    ensures var listed := Profile(st).resp.images;
      && IdsIncreasing(listed, ImageKey)
      && forall i, j :: 0 <= i < j < |listed| ==> listed[i] != listed[j]
  {
    FilterKeepsIncreasing(st.images, (im: Image) => im.userId == st.session.value, ImageKey);
  }

  /** The owner deletes an image whose file is not in the folder: `os.remove`
      raises before the row is deleted, so nothing changes. */
  lemma DeleteMissingFile(st: State, im: Image)
    requires KeysOrdered(st)
    requires im in st.images && st.session == Some(im.userId) && im.filename !in st.files
    ensures DeleteImage(st, im.id) == Step(st, FileMissing)
  {
    var found := FindImageById(st.images, im.id);
    ImageKeyUnique(st.images, found.value, im);
  }

  /** Once the owner has deleted an image, its id and its filename are unknown
      and it is gone from the owner's listing. */
  lemma DeletedImageIsGone(st: State, im: Image)
    requires Valid(st) && st.session == Some(im.userId) && im in st.images
    ensures var s := DeleteImage(st, im.id).st;
      && DeleteImage(s, im.id) == Step(s, NotFound)
      && ImageDetail(s, im.filename) == Step(s, NotFound)
      && im.filename !in s.files
      && Profile(s).resp.Listing? && im !in Profile(s).resp.images
  {
    DeleteOutcomes(st, im.id, im);
    var s := DeleteImage(st, im.id).st;
    DeletePreservesValid(st, im.id);
    forall x | x in s.images ensures x.id != im.id {
      assert x in st.images;
      var i :| 0 <= i < |st.images| && st.images[i] == im;
      var j :| 0 <= j < |st.images| && st.images[j] == x;
    }
  }

  /** A non-owner's delete leaves the image in its owner's listing. */
  lemma ForbiddenDeleteKeepsImage(st: State, im: Image)
    requires Valid(st) && st.session.Some? && im in st.images && im.userId != st.session.value
    ensures var s := DeleteImage(st, im.id).st;
      && s == st
      && im in Profile(s.(session := Some(im.userId))).resp.images
  {
    DeleteOutcomes(st, im.id, im);
    var i :| 0 <= i < |st.images| && st.images[i] == im;
  }

  /* ---------------- Authentication gate ---------------- */

  /** Every handler behind `login_required` turns an anonymous request away
      with a redirect to the login page and changes nothing. */
  lemma AnonymousRequestsRejected(st: State, lib: Library, token: string,
                                  part: Option<FilePart>, id: nat)
    requires st.session.None?
    ensures Logout(st) == Step(st, RedirectToLogin)
    ensures Profile(st) == Step(st, RedirectToLogin)
    ensures Upload(st, lib, token, part) == Step(st, RedirectToLogin)
    ensures DeleteImage(st, id) == Step(st, RedirectToLogin)
  {
  }
}

=== FILE: naming.dfy ===
/** The storage name an upload receives (app.py:89-90): the 32 lower-case hex
    digits of a random UUID, a dash, then the sanitized original name. */
module Naming {
  import opened Wrappers

  /** Length of `uuid.uuid4().hex`. */
  const TokenLength := 32

  predicate IsHexDigit(c: char) {
    '0' <= c <= '9' || 'a' <= c <= 'f'
  }

  /** A value `uuid.uuid4().hex` can take: 32 lower-case hex digits. */
  predicate IsToken(t: string) {
    |t| == TokenLength && forall i :: 0 <= i < |t| ==> IsHexDigit(t[i])
  }

  /** The name under which an upload is stored on disk and in its image row. */
  function StoredName(token: string, safe: string): (name: string)
    ensures |name| == |token| + 1 + |safe|
    ensures name[..|token|] == token && name[|token|] == '-' && name[|token| + 1..] == safe
  {
    token + "-" + safe
  }

  /** Splits a stored name back into its token and sanitized name, or None when
      the name does not have the shape StoredName gives. */
  function ParseStoredName(name: string): (r: Option<(string, string)>)
    ensures r.Some? ==> IsToken(r.value.0) && StoredName(r.value.0, r.value.1) == name
  {
    if |name| > TokenLength && name[TokenLength] == '-' && IsToken(name[..TokenLength]) then
      assert name == name[..TokenLength] + "-" + name[TokenLength + 1..];
      Some((name[..TokenLength], name[TokenLength + 1..]))
    else
      None
  }

  /** Composing a stored name and splitting it gives back both parts. */
  lemma ParseStoredNameInverts(token: string, safe: string)
    requires IsToken(token)
    ensures ParseStoredName(StoredName(token, safe)) == Some((token, safe))
  {
    var name := StoredName(token, safe);
    assert name[..TokenLength] == token;
    assert name[TokenLength] == '-';
    assert name[TokenLength + 1..] == safe;
  }

  /** Two uploads get the same stored name only if they drew the same token
      and their sanitized names agree. */
  lemma StoredNameInjective(t1: string, s1: string, t2: string, s2: string)
    requires IsToken(t1) && IsToken(t2)
    requires StoredName(t1, s1) == StoredName(t2, s2)
    ensures t1 == t2 && s1 == s2
  {
    ParseStoredNameInverts(t1, s1);
    ParseStoredNameInverts(t2, s2);
  }

  /** `token + "-"` opens `name`: the stored name was drawn with this token. */
  predicate StartsWithToken(name: string, token: string) {
    token + "-" <= name
  }

  /** A stored name starts with its own token and with no other token. */
  lemma StartsWithTokenExactly(token: string, safe: string, other: string)
    requires IsToken(token) && IsToken(other)
    ensures StartsWithToken(StoredName(token, safe), other) <==> other == token
  {
    var name := StoredName(token, safe);
    if StartsWithToken(name, other) {
      assert other + "-" == name[..TokenLength + 1];
      assert other == (other + "-")[..TokenLength];
      assert token == name[..TokenLength];
    } else {
      assert token + "-" == name[..TokenLength + 1];
    }
  }
}

=== FILE: rows.dfy ===
/** Sequence helpers modelling the row queries the application issues against
    its two tables: `query.filter_by(...).first()`, `query.filter_by(...).all()`,
    deleting rows, and the primary key SQLite assigns to a new row.
    A table is a sequence of rows in insertion (rowid) order. */
module Rows {
  import opened Wrappers

  /** The first row of `s` satisfying `p`, or None: what `.first()` returns. */
  function First<T>(s: seq<T>, p: T -> bool): (r: Option<T>)
    ensures r.Some? ==> r.value in s && p(r.value)
    ensures r.None? <==> forall x :: x in s ==> !p(x)
  {
    if |s| == 0 then None
    else if p(s[0]) then Some(s[0])
    else First(s[1..], p)
  }

  /** The rows of `s` satisfying `p`, in their original order: what `.all()` returns,
      and also what remains of a table after deleting the rows failing `p`. */
  function Filter<T>(s: seq<T>, p: T -> bool): (r: seq<T>)
    ensures |r| <= |s|
    ensures forall x :: x in r ==> x in s && p(x)
    ensures forall i :: 0 <= i < |s| && p(s[i]) ==> s[i] in r
    ensures multiset(r) <= multiset(s)
  {
    assert |s| > 0 ==> s == [s[0]] + s[1..];
    if |s| == 0 then []
    else if p(s[0]) then [s[0]] + Filter(s[1..], p)
    else Filter(s[1..], p)
  }

  /** `First` returns the element at `i` when it is the earliest that qualifies. */
  lemma {:induction false} FirstFindsEarliest<T>(s: seq<T>, p: T -> bool, i: nat)
    requires i < |s| && p(s[i])
    requires forall j :: 0 <= j < i ==> !p(s[j])
    ensures First(s, p) == Some(s[i])
  {
    if i > 0 {
      FirstFindsEarliest(s[1..], p, i - 1);
    }
  }

  /** Keys strictly increase along the table: primary keys are unique and
      rows sit in key order. */
  ghost predicate IdsIncreasing<T>(s: seq<T>, key: T -> nat)
  {
    forall i, j :: 0 <= i < j < |s| ==> key(s[i]) < key(s[j])
  }

  /** The largest key in the table, 0 for an empty one. */
  function MaxKey<T>(s: seq<T>, key: T -> nat): (m: nat)
    ensures forall x :: x in s ==> key(x) <= m
    ensures |s| == 0 ==> m == 0
    ensures |s| > 0 ==> exists x :: x in s && key(x) == m
  {
    if |s| == 0 then 0
    else
      var m := MaxKey(s[..|s| - 1], key);
      assert s == s[..|s| - 1] + [s[|s| - 1]];
      if key(s[|s| - 1]) > m then key(s[|s| - 1]) else m
  }

  /** The key SQLite gives a new row of an INTEGER PRIMARY KEY table without
      AUTOINCREMENT: one more than the largest key present, 1 for an empty table. */
  function NextKey<T>(s: seq<T>, key: T -> nat): (k: nat)
    ensures k >= 1
    ensures forall x :: x in s ==> key(x) < k
    ensures |s| == 0 ==> k == 1
    ensures |s| > 0 ==> exists x :: x in s && key(x) == k - 1
  {
    MaxKey(s, key) + 1
  }

  /** Deleting rows keeps the remaining keys in increasing order. */
  lemma {:induction false} FilterKeepsIncreasing<T>(s: seq<T>, p: T -> bool, key: T -> nat)
    requires IdsIncreasing(s, key)
    ensures IdsIncreasing(Filter(s, p), key)
  {
    if |s| > 0 {
      var tail := s[1..];
      TailKeepsIncreasing(s, key);
      FilterKeepsIncreasing(tail, p, key);
      if p(s[0]) {
        var ft := Filter(tail, p);
        assert Filter(s, p) == [s[0]] + ft;
        forall y | y in ft ensures key(s[0]) < key(y) {
          var k :| 0 <= k < |tail| && tail[k] == y;
          assert tail[k] == s[k + 1];
        }
        PrependKeepsIncreasing(s[0], ft, key);
      }
    }
  }

  /** Dropping the first row keeps the order. */
  lemma TailKeepsIncreasing<T>(s: seq<T>, key: T -> nat)
    requires |s| > 0 && IdsIncreasing(s, key)
    ensures IdsIncreasing(s[1..], key)
  {
    var tail := s[1..];
    forall i, j | 0 <= i < j < |tail| ensures key(tail[i]) < key(tail[j]) {
      assert tail[i] == s[i + 1] && tail[j] == s[j + 1];
    }
  }

  /** Prepending a row whose key is below every key present keeps the order. */
  lemma PrependKeepsIncreasing<T>(row: T, s: seq<T>, key: T -> nat)
    requires IdsIncreasing(s, key)
    requires forall x :: x in s ==> key(row) < key(x)
    ensures IdsIncreasing([row] + s, key)
  {
    var r := [row] + s;
    forall i, j | 0 <= i < j < |r| ensures key(r[i]) < key(r[j]) {
      assert r[j] == s[j - 1];
      if i == 0 {
        assert s[j - 1] in s;
      } else {
        assert r[i] == s[i - 1];
      }
    }
  }

  /** Appending a row whose key exceeds every key present keeps the order. */
  lemma AppendKeepsIncreasing<T>(s: seq<T>, row: T, key: T -> nat)
    requires IdsIncreasing(s, key)
    requires forall x :: x in s ==> key(x) < key(row)
    ensures IdsIncreasing(s + [row], key)
  {
    var r := s + [row];
    forall i, j | 0 <= i < j < |r| ensures key(r[i]) < key(r[j]) {
      assert r[i] == s[i];
      if j == |s| {
        assert s[i] in s;
      } else {
        assert r[j] == s[j];
      }
    }
  }
}

=== FILE: scenarios.dfy ===
/** Whole request sequences through the handlers, starting from an empty
    database and upload folder. */
module Scenarios {
  import opened Wrappers
  import opened Rows
  import opened Naming
  import opened App

  /** alice registers, logs in, uploads photo.png, sees it as her only image,
      deletes it, and afterwards sees no images and the name is unknown. */
  lemma UploadThenDelete(lib: Library, salt: string, token: string)
    requires lib.check(lib.hash(salt, "secret1"), "secret1")
    ensures
      var r1 := Register(Empty, lib, salt, "alice", "secret1");
      var r2 := Login(r1.st, lib, "alice", "secret1");
      var r3 := Upload(r2.st, lib, token, Some(FilePart("photo.png")));
      var r4 := DeleteImage(r3.st, 1);
      && r1.resp == Registered && r2.resp == LoggedIn
      && r3.resp == Uploaded(StoredName(token, lib.sanitize("photo.png")))
      && Profile(r3.st).resp == Listing([Image(1, r3.resp.filename, 1)])
      && r4.resp == Deleted && r4.st.files == {}
      && Profile(r4.st).resp == Listing([])
      && ImageDetail(r4.st, r3.resp.filename).resp == NotFound
  {
    var r1 := Register(Empty, lib, salt, "alice", "secret1");
    var r2 := Login(r1.st, lib, "alice", "secret1");
    var r3 := Upload(r2.st, lib, token, Some(FilePart("photo.png")));
    var alice := User(1, "alice", lib.hash(salt, "secret1"));
    RegisterFirst(lib, salt, "alice", "secret1");
    assert r1.st.users == [alice];
    LoginAt(r1.st, lib, 0, "secret1");
    assert r2 == Step(r1.st.(session := Some(1)), LoggedIn);
    UploadFirst(r2.st, lib, token, "photo.png");
    var x := Image(1, r3.resp.filename, 1);
    assert r3.st.images == [x] && r3.st.files == {x.filename} && r3.st.session == Some(1);
    OnlyImageListed(r3.st, x);
    OwnerDeletesOnlyImage(r3.st, x);
  }

  /** alice uploads an image; bob, logged in on his own, cannot delete it; when
      alice logs in again her listing still holds it. */
  lemma StrangerCannotDelete(lib: Library, s1: string, s2: string, token: string)
    requires lib.check(lib.hash(s1, "secret1"), "secret1") && lib.check(lib.hash(s2, "secret2"), "secret2")
    ensures
      var a := Register(Empty, lib, s1, "alice", "secret1").st;
      var ab := Register(a, lib, s2, "bob", "secret2").st;
      var up := Upload(Login(ab, lib, "alice", "secret1").st, lib, token, Some(FilePart("x.png")));
      var bob := Login(Logout(up.st).st, lib, "bob", "secret2").st;
      var del := DeleteImage(bob, 1);
      var again := Login(Logout(del.st).st, lib, "alice", "secret1").st;
      && up.resp.Uploaded?
      && bob.session == Some(2)
      && del == Step(bob, Forbidden)
      && Profile(again).resp == Listing([Image(1, up.resp.filename, 1)])
  {
    var a := Register(Empty, lib, s1, "alice", "secret1").st;
    var ab := Register(a, lib, s2, "bob", "secret2").st;
    var li := Login(ab, lib, "alice", "secret1").st;
    var up := Upload(li, lib, token, Some(FilePart("x.png")));
    var alice := User(1, "alice", lib.hash(s1, "secret1"));
    var bobUser := User(2, "bob", lib.hash(s2, "secret2"));
    RegisterFirst(lib, s1, "alice", "secret1");
    assert a.users == [alice];
    RegisterSecond(a, lib, s2, "bob", "secret2");
    assert |ab.users| == 2 && ab.users[0] == alice && ab.users[1] == bobUser;
    LoginAt(ab, lib, 0, "secret1");
    UploadFirst(li, lib, token, "x.png");
    BobThenAlice(lib, up.st, Image(1, up.resp.filename, 1));
  }

  /** From alice's session holding her one image: alice logs out, bob logs in
      and tries to delete it, bob logs out, alice logs in and lists her images. */
  lemma BobThenAlice(lib: Library, st: State, x: Image)
    requires |st.users| == 2
    requires st.users[0].id == 1 && st.users[0].username == "alice"
    requires st.users[1].id == 2 && st.users[1].username == "bob"
    requires lib.check(st.users[0].password, "secret1") && lib.check(st.users[1].password, "secret2")
    requires x.id == 1 && x.userId == 1
    requires st.images == [x] && st.session == Some(1)
    ensures
      var bob := Login(Logout(st).st, lib, "bob", "secret2").st;
      var del := DeleteImage(bob, 1);
      var again := Login(Logout(del.st).st, lib, "alice", "secret1").st;
      && bob.session == Some(2)
      && del == Step(bob, Forbidden)
      && Profile(again).resp == Listing([x])
  {
    var out := Logout(st).st;
    assert out == st.(session := None);
    LoginAt(out, lib, 1, "secret2");
    var bob := Login(out, lib, "bob", "secret2").st;
    var del := DeleteImage(bob, 1);
    assert del == Step(bob, Forbidden);
    assert Logout(del.st).st == out;
    LoginAt(out, lib, 0, "secret1");
    OnlyImageListed(st, x);
  }

  /* ---------------- Single steps on small concrete states ---------------- */

  /** The first registration gets key 1. */
  lemma RegisterFirst(lib: Library, salt: string, username: string, raw: string)
    ensures Register(Empty, lib, salt, username, raw)
      == Step(State([User(1, username, lib.hash(salt, raw))], [], {}, None), Registered)
  {
    assert NextKey([], UserKey) == 1;
  }

  /** A second registration under another name gets key 2. */
  lemma RegisterSecond(st: State, lib: Library, salt: string, username: string, raw: string)
    requires |st.users| == 1 && st.users[0].id == 1 && st.users[0].username != username
    ensures Register(st, lib, salt, username, raw)
      == Step(st.(users := st.users + [User(2, username, lib.hash(salt, raw))]), Registered)
  {
    assert st.users[..0] == [];
    assert NextKey(st.users, UserKey) == 2;
    assert FindUserByName(st.users, username).None?;
  }

  /** Logging in as the user at position `i`, whose name no earlier user has. */
  lemma LoginAt(st: State, lib: Library, i: nat, raw: string)
    requires i < |st.users|
    requires forall j :: 0 <= j < i ==> st.users[j].username != st.users[i].username
    requires lib.check(st.users[i].password, raw)
    ensures Login(st, lib, st.users[i].username, raw)
      == Step(st.(session := Some(st.users[i].id)), LoggedIn)
  {
    var name := st.users[i].username;
    var p := (u: User) => u.username == name;
    FirstFindsEarliest(st.users, p, i);
  }

  /** An upload into an empty folder becomes image 1. */
  lemma UploadFirst(st: State, lib: Library, token: string, filename: string)
    requires st.images == [] && st.files == {} && st.session.Some? && filename != ""
    ensures var name := StoredName(token, lib.sanitize(filename));
      Upload(st, lib, token, Some(FilePart(filename)))
        == Step(st.(images := [Image(1, name, st.session.value)], files := {name}), Uploaded(name))
  {
    assert NextKey([], ImageKey) == 1;
  }

  /** A user who owns the only image sees exactly that image. */
  lemma OnlyImageListed(st: State, x: Image)
    requires st.images == [x] && st.session == Some(x.userId)
    ensures Profile(st).resp == Listing([x])
  {
    assert [x][1..] == [];
  }

  /** The owner of the only image deletes it: no image and no file remain. */
  lemma OwnerDeletesOnlyImage(st: State, x: Image)
    requires st.images == [x] && st.files == {x.filename} && st.session == Some(x.userId)
    ensures var r := DeleteImage(st, x.id);
      && r.resp == Deleted
      && r.st == st.(images := [], files := {})
      && Profile(r.st).resp == Listing([])
      && ImageDetail(r.st, x.filename).resp == NotFound
  {
    assert [x][1..] == [];
  }
}

=== FILE: wrappers.dfy ===
/** The optional value a query returns: a row, or nothing. */
module Wrappers {

  datatype Option<+T> = None | Some(value: T)
}
